=== FILE: README.md ===
# Zest CLI feedback relay, in Dafny

A model of the feedback relay in `worker/feedback-handler.js`, a Cloudflare
Worker that takes a bug report from the website's report form and forwards
it by e-mail. It is the only part of the repository with backend
behaviour; the rest is presentational React.

The relay handles each HTTP request on its own, as a strict short-circuit
pipeline:

1. `OPTIONS` gets the CORS preflight answer.
2. Any method other than `POST` gets `405 Method not allowed`.
3. The per-IP rate limiter runs. A throttled client gets `429` with a
   `retryAfter` wait and a `Retry-After` header.
4. The JSON body is read. A filled-in `website` honeypot gets the ordinary
   success response, and nothing is sent.
5. A missing or empty `prompt` or `failedOutput` gets `400`.
6. The HTML notification is built, with user text escaped, and handed to
   the e-mail provider.
7. Delivery gives `200`. A provider failure, or any exception, gives a
   generic `500`.

The rate limiter admits `RATE_LIMIT` = 1 submission per `RATE_LIMIT_WINDOW`
= 60 s window. Past the limit it blocks the client for `BLOCK_DURATION` =
60 s. Its records live in a key-value store under `ratelimit:<ip>`. When no
store is bound it fails open.

Modules, one file each:

- `wrappers.dfy` (`Wrappers`): `Option`.
- `submission.dfy` (`Feedback`): the submission fields, JavaScript
  truthiness of a string field, and the client address with its `"unknown"`
  fallback.
- `rate_limit.dfy` (`RateLimit`): the record, the transition `Step`, and the
  store-level `CheckRateLimit`. It also has runs of requests from one client
  (`Replay`), with their guarantees.
- `html_escape.dfy` (`HtmlEscape`): `escapeHtml`. Its partner is
  `Unescape`, which decodes the five character references.
- `decimal.dfy` (`Decimal`): the decimal text of the `Retry-After` header
  and its reader.
- `email.dfy` (`FeedbackEmail`): the notification body, built from the
  template in the same order and whitespace. Its partner is `ParseHtml`,
  which reads the fields back out of a body.
- `handler.dfy` (`FeedbackHandler`): the request pipeline `Handle`.

Inputs stand in for the outside world:

- the current time, in whole seconds, for `Date.now()`;
- the submission timestamp string, for `new Date().toISOString()`;
- the store contents, as `Option<map<string, Record>>`;
- the provider's answer, as `Delivered | Failed(detail)`.

Three behaviours of the code are worth knowing, and the model keeps each
as written:

- **Increment branch TTL.** The increment branch writes the record again
  with a fresh 60 s TTL rather than keeping its expiry
  (worker/feedback-handler.js:195-199).
- **End of a block.** A client is not always admitted once its block ends.
  A client blocked at the instant its window opened, and retrying exactly
  at `blockedUntil`, is still inside the window (the test is
  `now - firstRequest > 60`), so it is blocked again.
  `RateLimit.ReleaseAfterBlock` states exactly when a request is admitted
  after a block. `RateLimit.ReblockedAtBoundary` shows the case on numbers.
- **The 429 message.** It says "Please wait 30 seconds", while the
  `retryAfter` it carries is the 60 s block.

## Model

| member | source | states |
|---|---|---|
| RateLimit.Step | worker/feedback-handler.js:153-201 | A request on a known key is admitted exactly when no block is in force and either the window has lapsed or the count is under the limit; a new key is always admitted. Every rejection carries a positive wait. The store is left unwritten exactly when the client is blocked. An admitted request writes an unblocked record with the 60 s TTL. A written record either opens a window at `now` or keeps the stored window with the count one higher. A written block never outlives its record's TTL. |
| RateLimit.CheckRateLimit | worker/feedback-handler.js:130-151 | With no store bound, every request is admitted and nothing is written (fail open). With a store, the verdict and the write are exactly those of `Step` on the record stored under `ratelimit:<ip>` (or on no record). Only that entry can change, and it changes to the record written. Only a configured store can reject. |
| RateLimit.FreshKey | worker/feedback-handler.js:143-151 | A key never seen is admitted and gets `{count: 1, firstRequest: now}` with TTL 60. |
| RateLimit.BlockedKey | worker/feedback-handler.js:155-161 | While `now < blockedUntil` the request is rejected with `retryAfter = blockedUntil - now > 0` and the store is not written. |
| RateLimit.WindowReset | worker/feedback-handler.js:163-174 | Unblocked and more than 60 s after `firstRequest`, the window restarts at `now` with count 1 and any old block dropped. A request exactly 60 s in is still inside the window. |
| RateLimit.WithinWindow | worker/feedback-handler.js:176-201 | Inside the window, at the limit: rejected with `retryAfter = 60`, and the record is written with count + 1, the same `firstRequest`, `blockedUntil = now + 60` and TTL 120. Under the limit: admitted, count + 1, same window, TTL 60. |
| RateLimit.StepKeepsReachable | worker/feedback-handler.js:143-201 | Every record the limiter writes has count at least 1, a window opened no later than now, and any block ending at most 60 s ahead. This stays true as the clock advances. |
| RateLimit.RetryAfterBounds | worker/feedback-handler.js:155-192 | For a record the limiter wrote, every rejection asks for a wait between 1 and 60 s. |
| RateLimit.AdmittedOnlyAfterWindow | worker/feedback-handler.js:164-201 | With the limit at 1, a known key is admitted only after its window has lapsed, and the admitted request opens a new window at `now`. |
| RateLimit.ReleaseAfterBlock | worker/feedback-handler.js:155-192 | After a block set at time t, a request at or after t + 60 is admitted if and only if it is later than t + 60 or the window opened before t. |
| RateLimit.ReblockedAtBoundary | worker/feedback-handler.js:155-192 | On numbers: a window opened and blocked at 0 is blocked again at exactly 60 and released at 61. |
| RateLimit.KeyInjective | worker/feedback-handler.js:137 | Two client addresses share a store key only if they are equal. |
| RateLimit.OtherClientUnaffected | worker/feedback-handler.js:137-151 | Checking one client does not create another client's entry, so a new second client at the same instant is still new and is admitted. |
| RateLimit.SecondRequestRefused | worker/feedback-handler.js:143-192 | A new client's first request is admitted. A repeat within the window is rejected with `retryAfter = 60`. |
| RateLimit.AdmittedAfterStoredWindow | worker/feedback-handler.js:164-201 | Over any run of requests on a written record, every admitted request comes more than 60 s after that record's window opened. |
| RateLimit.AdmittedRequestsSpaced | worker/feedback-handler.js:143-201 | Over any run of requests from one client, starting from a new key or a written record, any two admitted requests are more than 60 s apart. |
| RateLimit.RunRetryAfterBounds | worker/feedback-handler.js:155-192 | Over any run with a clock that does not go backwards, starting from a new key or from a record the limiter wrote no later than the first request, every rejection's `retryAfter` lies in 1..60. |
| HtmlEscape.EscapeChar | worker/feedback-handler.js:266-272 | The replacement of one character contains no raw `<`, `>`, `"` or `'`. It starts with `&` exactly when the character is one of the five escaped ones, and is longer than one character for them. Any other character is copied as is. |
| HtmlEscape.EscapeHtml | worker/feedback-handler.js:265-274 | The output contains no raw `<`, `>`, `"` or `'` and is never shorter than the input. It equals the input exactly when the input has none of the five characters. |
| HtmlEscape.UnescapeEscapeChar | worker/feedback-handler.js:266-273 | Decoding the replacement of any character, whatever follows it, gives that character back first. |
| HtmlEscape.UnescapeEscape | worker/feedback-handler.js:265-274 | Decoding the five references in the escaped text recovers the text exactly. |
| HtmlEscape.EscapeInjective | worker/feedback-handler.js:265-274 | Different texts never escape to the same output. |
| HtmlEscape.EscapeConcat | worker/feedback-handler.js:273 | Escaping a concatenation is the concatenation of the escaped parts. |
| HtmlEscape.EscapeSingle | worker/feedback-handler.js:266-272 | The exact mapping: `&` to `&amp;`, `<` to `&lt;`, `>` to `&gt;`, `"` to `&quot;`, `'` to `&#039;`. |
| HtmlEscape.TagNeutralised | worker/feedback-handler.js:265-274 | A tag in user text, such as `<script>`, escapes to `&lt;` + name + `&gt;`: its brackets become references and its name is kept. |
| Decimal.FromNat | worker/feedback-handler.js:49 | The header text for the wait is non-empty, all digits, with no leading zero, and has one digit exactly for waits under 10. |
| Decimal.ToNatFromNat | worker/feedback-handler.js:49 | Reading the header text back gives the wait. |
| Decimal.RetryAfterSixty | worker/feedback-handler.js:49 | A 60 s wait is sent as `60`. |
| Feedback.ClientIp | worker/feedback-handler.js:34 | The client address is the connecting-IP header when it is present and non-empty, otherwise `unknown`. It is never empty. |
| FeedbackEmail.VersionLabel | worker/feedback-handler.js:222 | The version shown is the submitted one when it is truthy, otherwise `Not specified`. |
| FeedbackEmail.ExpectedSection | worker/feedback-handler.js:231-234 | The expected-output section is empty when the field is missing or empty, and otherwise opens with its heading. |
| FeedbackEmail.ParseExpectedSection | worker/feedback-handler.js:231-234 | The expected-output section reads back as the submitted text when the field is truthy, and as absent otherwise. |
| FeedbackEmail.ParseLowerRender | worker/feedback-handler.js:228-237 | The lower half of the body reads back as the failed output, the expected output if any, and the timestamp. |
| FeedbackEmail.ParseUpper | worker/feedback-handler.js:219-226 | The upper half of a body reads back as the client address and the decoded version and prompt, followed by whatever the lower half reads as. |
| FeedbackEmail.RenderHtml | worker/feedback-handler.js:219-238 | The notification body, with the template's text and whitespace. It has no contract of its own; `FeedbackEmail.ParseRender` characterises it. |
| FeedbackEmail.ParseRender | worker/feedback-handler.js:219-238 | For a client address and a timestamp without `<`, a notification body reads back to exactly the client address, the version label, the prompt, the failed output, the expected output when given, and the timestamp. This holds whatever characters the user typed, so user text cannot change the markup. |
| FeedbackEmail.MissingVersionShownAsNotSpecified | worker/feedback-handler.js:222 | With no model version, or an empty one, the notification shows `Not specified`. |
| FeedbackHandler.TooManyRequests | worker/feedback-handler.js:38-53 | The 429 response carries the wait in its JSON body. It has the CORS origin header and a `Retry-After` header whose text is exactly the shortest decimal numeral of that wait, which reads back as the wait. |
| FeedbackHandler.Compose | worker/feedback-handler.js:207-238 | The e-mail goes from the configured sender to the configured recipient with the fixed subject. When the client address and the timestamp contain no `<`, its body reads back to the submission's fields. |
| FeedbackHandler.Handle | worker/feedback-handler.js:15-123 | `OPTIONS`: the preflight answer with the three CORS headers, store untouched, nothing sent. 405 exactly for the methods other than `OPTIONS` and `POST`, and nothing else happens. A POST runs exactly one rate-limit check. An e-mail goes out exactly when the request is a POST, admitted, with a readable body, no honeypot and both required fields, and it is this submission's notification. 429 exactly when the limiter rejects. 400 exactly when validation fails past the honeypot, and it is the missing-fields JSON error with the JSON content type and the CORS origin header. 200 exactly for preflight, honeypot, or delivery. 500 exactly for an admitted POST whose body is unreadable, or whose delivery the provider refused, and every 500 is the one generic failure. Every response except the 405 allows any origin. |
| FeedbackHandler.PreflightIndependent | worker/feedback-handler.js:16-25 | The preflight answer does not depend on the store, the body, the clock or the provider, and leaves the store as it was. |
| FeedbackHandler.ThrottledBeforeBody | worker/feedback-handler.js:36-57 | A throttled request's outcome is the same whatever its body holds, even a body that is not JSON, and nothing is sent. |
| FeedbackHandler.HoneypotIndistinguishable | worker/feedback-handler.js:59-107 | A filled-in honeypot gets the same response as a genuine delivered submission, even with the required fields missing, and nothing is sent. |
| FeedbackHandler.ProviderDetailHidden | worker/feedback-handler.js:87-122 | Two provider failures with different error text give the same outcome, the generic 500. |
| FeedbackHandler.NoStoreNeverThrottles | worker/feedback-handler.js:130-135 | With no store bound, no request is ever answered 429. |
| FeedbackHandler.RetryAfterInResponse | worker/feedback-handler.js:37-53 | For a client whose record the limiter wrote, a 429 asks for a wait between 1 and 60 s, in the JSON body and in the `Retry-After` header alike. |
| FeedbackHandler.AcceptedFromNewClient | worker/feedback-handler.js:55-107 | A valid submission from a new client gets the success response, and exactly one notification goes out. When the client address and the timestamp contain no `<`, it reads back to that submission's address, version label, prompt, failed output, expected output and timestamp. |
| FeedbackHandler.RepeatScenario | worker/feedback-handler.js:36-53 | The same submission twice within 5 s from one client: 200, then the 429 with a 60 s wait, and the second request sends nothing. |
| FeedbackHandler.SpamScenario | worker/feedback-handler.js:59-71 | A submission with `website` filled in and valid fields, from a new client or with no store bound, gets the success response, and nothing is sent. |

## Left out

- The call to the Resend API (worker/feedback-handler.js:209-259) is
  foreign I/O. It is the input `Delivery`. An exception inside `sendEmail`
  counts as `Failed`, as the source turns it into a failure result; for
  example, `escapeHtml` on a non-string field throws.
- Expiry of store entries is not modelled. Each write carries its TTL in
  `Put`, and the store keeps what was last written. With real expiry, a
  record can vanish after its TTL and the next request is then treated as a
  new key. The fresh and reset records have TTL 60
  (worker/feedback-handler.js:148, 171), so a request exactly 60 s after a
  window opened can find the key gone and be admitted. Four guarantees
  therefore hold only while entries do not expire at that boundary:
  `RateLimit.AdmittedRequestsSpaced` (admitted requests more than 60 s
  apart), `RateLimit.AdmittedAfterStoredWindow` (each admission more than
  60 s after the stored window opened), `RateLimit.WindowReset` (a request
  exactly 60 s in is still inside the window) and
  `RateLimit.SecondRequestRefused` (rejection up to `t1 + 60`).
- Numbers are unbounded integers. In the source, the record fields
  `count`, `firstRequest` and `blockedUntil`, the clock `now` and
  `retryAfter` are JavaScript doubles: `count + 1` stops growing at 2^53,
  and `toString()` writes exponent notation (`1e+21`) from 10^21 upward.
  `Decimal.FromNat` is therefore the `Retry-After` text of
  `FeedbackHandler.TooManyRequests` only for waits below 10^21. The waits the
  limiter produces are at most 60 s, and its counts stay small, so no
  record it writes reaches either limit.
- The client address and the timestamp are inserted into the e-mail body
  without escaping (worker/feedback-handler.js:221, 237). The round trip of
  `FeedbackEmail.ParseRender`, `FeedbackHandler.Compose` and
  `FeedbackHandler.AcceptedFromNewClient` is therefore stated only for an
  address and a timestamp without `<`. An address containing `<` could
  change the markup; the proxy-supplied header and `unknown` do not
  contain one.
- Failures of the store itself (a throwing `get` or `put`) are not modelled.
  In the source these reach the catch and give 500.
- The read-then-write race between concurrent requests from one client is
  not modelled: the model handles one request at a time, so two requests
  read together can both be admitted.
- JSON parsing and serialisation are not modelled. The body is either a
  `Submission` of optional strings or `None`: text that is not JSON, or JSON
  `null`, which makes reading or destructuring throw and gives the 500 of
  the catch. A JSON number, string or array destructures to missing fields
  and is a `Submission` with every field `None`, which gets the 400. Field
  values of other JSON types (numbers, booleans, objects) are not modelled.
- Stored records not of the shape the limiter writes (missing or non-number
  fields) are not modelled. Record fields are integers.
- `console.warn` and `console.error` logging are not modelled.
- Headers the runtime adds by itself, such as the plain-text content type
  of the 405 response, are not modelled. Only headers the code sets appear.
- The ISO timestamp is an input string, not computed.
- The React pages, components and hooks of the website are presentational.
  They are not part of this model, and neither is the `mailto:` link of the
  report page.

=== FILE: decimal.dfy ===
/** Decimal rendering of a whole number, as the relay's `toString()` writes
    the `Retry-After` header value for a wait below 10^21 (above that a
    double prints in exponent notation), with a reader as its inverse. */
module Decimal {

  predicate IsDigit(c: char)
  {
    '0' <= c <= '9'
  }

  predicate AllDigits(s: string)
  {
    forall i :: 0 <= i < |s| ==> IsDigit(s[i])
  }

  function DigitChar(d: nat): (c: char)
    requires d < 10
    ensures IsDigit(c)
    ensures (c as int) - ('0' as int) == d
  {
    (('0' as int) + d) as char
  }

  /** The shortest decimal numeral for `n`: digits only, no leading zero. */
  function FromNat(n: nat): (s: string)
    ensures |s| > 0 && AllDigits(s)
    ensures |s| > 1 ==> s[0] != '0'
    ensures n < 10 <==> |s| == 1
    decreases n
  {
    if n < 10 then [DigitChar(n)]
    else
      var front := FromNat(n / 10);
      var s := front + [DigitChar(n % 10)];
      assert s[0] == front[0];
      assert AllDigits(s) by {
        forall i | 0 <= i < |s|
          ensures IsDigit(s[i])
        {
          if i < |front| {
            assert s[i] == front[i];
          }
        }
      }
      s
  }

  /** The value a decimal numeral denotes. */
  function ToNat(s: string): nat
    requires AllDigits(s)
    decreases |s|
  {
    if |s| == 0 then 0
    else ToNat(s[..|s| - 1]) * 10 + ((s[|s| - 1] as int) - ('0' as int))
  }

  /** Reading back the rendered numeral gives the number. */
  lemma {:induction false} ToNatFromNat(n: nat)
    ensures ToNat(FromNat(n)) == n
    decreases n
  {
    var s := FromNat(n);
    if n < 10 {
      assert s[..0] == [];
    } else {
      ToNatFromNat(n / 10);
      assert s[..|s| - 1] == FromNat(n / 10);
    }
  }

  lemma RetryAfterSixty()
    ensures FromNat(60) == "60"
  {
  }
}

=== FILE: email.dfy ===
/** The notification e-mail the relay sends: its fixed subject and the HTML
    body assembled from the submission. `ParseHtml` reads the fields back out
    of a body; that every body parses back to exactly the submitted fields is
    the statement that user text cannot alter the notification's markup. */
module FeedbackEmail {
  import opened Wrappers
  import opened HtmlEscape
  import opened Feedback

  const SUBJECT := "New Zest CLI Feedback Report"
  /** Shown in place of a missing or empty model version. */
  const NOT_SPECIFIED := "Not specified"

  /** Line break plus the template's ten-space indentation. */
  const NL := "\n          "
  const PRE_OPEN := "<pre style=\"background: #f5f5f5; padding: 15px; border-radius: 5px; overflow-x: auto;\">"

  // The fixed pieces of the body, in order; every piece that follows an
  // interpolated value opens with a tag.
  const HEAD := NL + "<h2>New Feedback Report</h2>" + NL + "<p><strong>Submitted from IP:</strong> "
  const AFTER_IP := "</p>" + NL + "<p><strong>Model Version:</strong> "
  const AFTER_VERSION := "</p>" + NL + "<hr />\n" + NL + "<h3>Natural Language Prompt:</h3>" + NL + PRE_OPEN
  const AFTER_PROMPT := "</pre>\n" + NL + "<h3>Failed Model Output:</h3>" + NL + PRE_OPEN
  const AFTER_FAILED := "</pre>\n" + NL
  const EXPECTED_OPEN := NL + "<h3>Expected Model Output:</h3>" + NL + PRE_OPEN
  const EXPECTED_CLOSE := "</pre>" + NL
  const FOOTER := "\n" + NL + "<hr />" + NL + "<p style=\"color: #666; font-size: 12px;\">Submitted at: "
  const END := "</p>\n        "

  /** The model version shown: the submitted one if truthy, else the placeholder. */
  function VersionLabel(modelVersion: Option<string>): (shown: string)
    ensures |shown| > 0
    ensures Present(modelVersion) ==> shown == modelVersion.value
    ensures !Present(modelVersion) ==> shown == NOT_SPECIFIED
  {
    if Present(modelVersion) then modelVersion.value else NOT_SPECIFIED
  }

  /** The optional expected-output section: present only for a truthy field. */
  function ExpectedSection(expectedOutput: Option<string>): (section: string)
    ensures !Present(expectedOutput) ==> section == ""
    ensures Present(expectedOutput) ==> IsPrefix(EXPECTED_OPEN, section)
  {
    if Present(expectedOutput)
    then EXPECTED_OPEN + (EscapeHtml(expectedOutput.value) + EXPECTED_CLOSE)
    else ""
  }

  /** The HTML body. The client address and the timestamp are inserted as
      they are; the four user-supplied values are escaped. */
  function RenderHtml(clientIp: string, modelVersion: Option<string>, prompt: string,
                      failedOutput: string, expectedOutput: Option<string>,
                      submittedAt: string): string
  {
    HEAD + (clientIp + (AFTER_IP + (EscapeHtml(VersionLabel(modelVersion)) +
    (AFTER_VERSION + (EscapeHtml(prompt) + (AFTER_PROMPT + (EscapeHtml(failedOutput) +
    (AFTER_FAILED + (ExpectedSection(expectedOutput) + (FOOTER + (submittedAt + END)))))))))))
  }

  /** What a reader of the notification learns from it. */
  datatype Report = Report(
    clientIp: string,
    modelVersion: string,
    prompt: string,
    failedOutput: string,
    expectedOutput: Option<string>,
    submittedAt: string)

  predicate NoTag(s: string)
  {
    forall i :: 0 <= i < |s| ==> s[i] != '<'
  }

  /** Splits before the first `<`. */
  function SplitAtTag(s: string): (parts: (string, string))
    ensures parts.0 + parts.1 == s
    ensures NoTag(parts.0)
    ensures |parts.1| > 0 ==> parts.1[0] == '<'
    decreases |s|
  {
    if |s| == 0 || s[0] == '<' then ([], s)
    else
      var (text, rest) := SplitAtTag(s[1..]);
      assert [s[0]] + (text + rest) == s;
      assert NoTag([s[0]] + text) by {
        forall i | 0 <= i < |[s[0]] + text|
          ensures ([s[0]] + text)[i] != '<'
        {
          if i > 0 {
            assert ([s[0]] + text)[i] == text[i - 1];
          }
        }
      }
      ([s[0]] + text, rest)
  }

  /** Removes an expected fixed piece from the front. */
  function Expect(piece: string, s: string): (r: Option<string>)
    ensures r.Some? <==> IsPrefix(piece, s)
    ensures r.Some? ==> piece + r.value == s
  {
    if IsPrefix(piece, s) then
      assert piece + s[|piece|..] == s;
      Some(s[|piece|..])
    else None
  }

  /** Reads text up to the next tag, then the fixed piece that must follow. */
  function ReadThen(piece: string, s: string): (r: Option<(string, string)>)
    ensures r.Some? ==> NoTag(r.value.0) && r.value.0 + (piece + r.value.1) == s
  {
    var (text, rest) := SplitAtTag(s);
    match Expect(piece, rest)
    case None => None
    case Some(after) => Some((text, after))
  }

  /** Reads a body back into the fields it shows; None if the body does not
      have the relay's layout. */
  function ParseHtml(html: string): (report: Option<Report>)
  {
    match Expect(HEAD, html)
    case None => None
    case Some(r0) =>
      match ReadThen(AFTER_IP, r0)
      case None => None
      case Some((ip, r1)) =>
        match ReadThen(AFTER_VERSION, r1)
        case None => None
        case Some((version, r2)) =>
          match ReadThen(AFTER_PROMPT, r2)
          case None => None
          case Some((prompt, r3)) =>
            match ParseLower(r3)
            case None => None
            case Some((failed, expected, at)) =>
              Some(Report(ip, Unescape(version), Unescape(prompt), failed, expected, at))
  }

  /** Reads the failed output, the optional expected output and the timestamp. */
  function ParseLower(s: string): (r: Option<(string, Option<string>, string)>)
  {
    match ReadThen(AFTER_FAILED, s)
    case None => None
    case Some((failed, r0)) =>
      var (expected, r1) := ParseExpected(r0);
      match Expect(FOOTER, r1)
      case None => None
      case Some(r2) =>
        var (at, r3) := SplitAtTag(r2);
        if r3 == END then Some((Unescape(failed), expected, at)) else None
  }

  /** Reads the optional expected-output section. */
  function ParseExpected(s: string): (Option<string>, string)
  {
    match Expect(EXPECTED_OPEN, s)
    case None => (None, s)
    case Some(r0) =>
      match ReadThen(EXPECTED_CLOSE, r0)
      case None => (None, s)
      case Some((text, r1)) => (Some(Unescape(text)), r1)
  }

  /** Splitting text without a tag off a piece that opens with one. */
  lemma {:induction false} SplitAtTagConcat(text: string, rest: string)
    requires NoTag(text)
    requires |rest| > 0 && rest[0] == '<'
    ensures SplitAtTag(text + rest) == (text, rest)
    decreases |text|
  {
    if |text| > 0 {
      var s := text + rest;
      assert s[0] == text[0] && s[1..] == text[1..] + rest;
      assert NoTag(text[1..]) by {
        forall i | 0 <= i < |text[1..]|
          ensures text[1..][i] != '<'
        {
          assert text[1..][i] == text[i + 1];
        }
      }
      SplitAtTagConcat(text[1..], rest);
      assert [text[0]] + text[1..] == text;
    } else {
      assert text + rest == rest;
    }
  }

  /** Escaped text carries no `<`. */
  lemma EscapedHasNoTag(s: string)
    ensures NoTag(EscapeHtml(s))
  {
    var e := EscapeHtml(s);
    forall i | 0 <= i < |e|
      ensures e[i] != '<'
    {
      assert !IsMarkup(e[i]);
    }
  }

  /** Reading a field followed by a fixed piece that opens with a tag. */
  lemma ReadField(text: string, piece: string, tail: string)
    requires NoTag(text)
    requires |piece| > 0 && piece[0] == '<'
    ensures ReadThen(piece, text + (piece + tail)) == Some((text, tail))
  {
    SplitAtTagConcat(text, piece + tail);
    ExpectPrefix(piece, tail);
  }

  lemma ExpectPrefix(piece: string, tail: string)
    ensures Expect(piece, piece + tail) == Some(tail)
  {
    assert (piece + tail)[..|piece|] == piece;
    assert (piece + tail)[|piece|..] == tail;
  }

  /** The expected-output section reads back to the submitted field, and its
      absence reads back as absence. */
  lemma ParseExpectedSection(expectedOutput: Option<string>, tail: string)
    requires IsPrefix(FOOTER, tail)
    ensures ParseExpected(ExpectedSection(expectedOutput) + tail) ==
            (if Present(expectedOutput) then Some(expectedOutput.value) else None, tail)
  {
    if Present(expectedOutput) {
      var esc := EscapeHtml(expectedOutput.value);
      EscapedHasNoTag(expectedOutput.value);
      assert ExpectedSection(expectedOutput) + tail ==
             EXPECTED_OPEN + (esc + (EXPECTED_CLOSE + tail));
      ExpectPrefix(EXPECTED_OPEN, esc + (EXPECTED_CLOSE + tail));
      ReadField(esc, EXPECTED_CLOSE, tail);
      UnescapeEscape(expectedOutput.value);
    } else {
      assert ExpectedSection(expectedOutput) + tail == tail;
      assert !IsPrefix(EXPECTED_OPEN, tail) by {
        assert tail[1] == FOOTER[1] == '\n';
        assert EXPECTED_OPEN[1] == ' ';
      }
    }
  }

  /** The lower half of the body: failed output, expected output, timestamp. */
  lemma ParseLowerRender(failedOutput: string, expectedOutput: Option<string>, submittedAt: string)
    requires NoTag(submittedAt)
    ensures ParseLower(EscapeHtml(failedOutput) + (AFTER_FAILED + (ExpectedSection(expectedOutput) +
                       (FOOTER + (submittedAt + END))))) ==
            Some((failedOutput,
                  if Present(expectedOutput) then Some(expectedOutput.value) else None,
                  submittedAt))
  {
    var escF := EscapeHtml(failedOutput);
    EscapedHasNoTag(failedOutput);
    UnescapeEscape(failedOutput);
    var t10 := submittedAt + END;
    var t9 := FOOTER + t10;
    var t8 := ExpectedSection(expectedOutput) + t9;
    ReadField(escF, AFTER_FAILED, t8);
    ExpectPrefix(FOOTER, t10);
    ParseExpectedSection(expectedOutput, t9);
    SplitAtTagConcat(submittedAt, END);
  }

  /** The upper half of a body: the address and the two escaped fields
      before the failed output are read off, and the rest is left to
      `ParseLower`. */
  lemma ParseUpper(clientIp: string, escVersion: string, escPrompt: string, lower: string)
    requires NoTag(clientIp) && NoTag(escVersion) && NoTag(escPrompt)
    ensures var html := HEAD + (clientIp + (AFTER_IP + (escVersion + (AFTER_VERSION +
                        (escPrompt + (AFTER_PROMPT + lower))))));
            ParseHtml(html) ==
            match ParseLower(lower)
            case None => None
            case Some((failed, expected, at)) =>
              Some(Report(clientIp, Unescape(escVersion), Unescape(escPrompt), failed, expected, at))
  {
    var t2 := escPrompt + (AFTER_PROMPT + lower);
    var t1 := escVersion + (AFTER_VERSION + t2);
    var t0 := clientIp + (AFTER_IP + t1);
    ExpectPrefix(HEAD, t0);
    ReadField(clientIp, AFTER_IP, t1);
    ReadField(escVersion, AFTER_VERSION, t2);
    ReadField(escPrompt, AFTER_PROMPT, lower);
  }

  /** The notification round trip: the body shows exactly the client address,
      the model-version label, the prompt, the failed output, the expected
      output when one was given, and the timestamp, whatever characters the
      user put in the four free-text fields. */
  lemma ParseRender(clientIp: string, modelVersion: Option<string>, prompt: string,
                    failedOutput: string, expectedOutput: Option<string>, submittedAt: string)
    requires NoTag(clientIp) && NoTag(submittedAt)
    ensures ParseHtml(RenderHtml(clientIp, modelVersion, prompt, failedOutput,
                                 expectedOutput, submittedAt)) ==
            Some(Report(clientIp, VersionLabel(modelVersion), prompt, failedOutput,
                        if Present(expectedOutput) then Some(expectedOutput.value) else None,
                        submittedAt))
  {
    var version := VersionLabel(modelVersion);
    EscapedHasNoTag(version);
    EscapedHasNoTag(prompt);
    UnescapeEscape(version);
    UnescapeEscape(prompt);
    var lower := EscapeHtml(failedOutput) + (AFTER_FAILED + (ExpectedSection(expectedOutput) +
                 (FOOTER + (submittedAt + END))));
    ParseLowerRender(failedOutput, expectedOutput, submittedAt);
    ParseUpper(clientIp, EscapeHtml(version), EscapeHtml(prompt), lower);
  }

  /** Without a model version, or with an empty one, the notification says
      "Not specified". */
  lemma MissingVersionShownAsNotSpecified(clientIp: string, modelVersion: Option<string>,
                                          prompt: string, failedOutput: string,
                                          expectedOutput: Option<string>, submittedAt: string)
    requires NoTag(clientIp) && NoTag(submittedAt)
    requires modelVersion.None? || modelVersion == Some("")
    ensures var report := ParseHtml(RenderHtml(clientIp, modelVersion, prompt, failedOutput,
                                               expectedOutput, submittedAt));
            report.Some? && report.value.modelVersion == NOT_SPECIFIED
  {
    ParseRender(clientIp, modelVersion, prompt, failedOutput, expectedOutput, submittedAt);
    assert VersionLabel(modelVersion) == NOT_SPECIFIED;
  }
}

=== FILE: handler.dfy ===
/** The relay's request handler: a strict short-circuit pipeline of CORS
    preflight, method gate, rate limit, body parse, honeypot, validation and
    e-mail dispatch. The clock, the submission timestamp and the provider's
    answer are inputs; the key-value store is passed in and handed back. */
module FeedbackHandler {
  import opened Wrappers
  import opened RateLimit
  import opened Feedback
  import opened FeedbackEmail
  import Decimal

  datatype Header = Header(name: string, value: string)

  /** The JSON bodies the relay writes. */
  datatype JsonBody =
    | Acknowledged(success: bool, message: string)
    | ErrorMessage(error: string)
    | Throttled(error: string, retryAfter: int)

  datatype Payload = NoBody | PlainText(text: string) | Json(json: JsonBody)

  /** Status, body and the headers the relay sets explicitly. */
  datatype Response = Response(status: int, payload: Payload, headers: seq<Header>)

  /** An incoming request: its HTTP method, the proxy's connecting-IP header, and
      its body read as a submission. The body is None when it is not valid
      JSON or is JSON `null`: reading or destructuring it then throws. Any
      other JSON value that is not an object (a number, a string, an array)
      destructures to missing fields, a Submission whose fields are all None. */
  datatype Request = Request(httpMethod: string, connectingIp: Option<string>, body: Option<Submission>)

  /** The deployment: the rate-limit store if one is bound, and the sender
      and recipient addresses. */
  datatype Env = Env(kv: Option<Store>, fromEmail: string, toEmail: string)

  datatype Email = Email(from: string, to: string, subject: string, html: string)

  /** What the e-mail provider answered; the failure detail is the
      provider's own text. */
  datatype Delivery = Delivered | Failed(detail: string)

  /** The response, the store afterwards, and the e-mail handed to the
      provider, if one was. */
  datatype Outcome = Outcome(response: Response, kv: Option<Store>, dispatched: Option<Email>)

  const ALLOW_ANY_ORIGIN := Header("Access-Control-Allow-Origin", "*")
  const JSON_CONTENT := Header("Content-Type", "application/json")

  const PREFLIGHT := Response(200, NoBody, [
    ALLOW_ANY_ORIGIN,
    Header("Access-Control-Allow-Methods", "POST, OPTIONS"),
    Header("Access-Control-Allow-Headers", "Content-Type")])

  const METHOD_NOT_ALLOWED := Response(405, PlainText("Method not allowed"), [])

  const SUCCESS_MESSAGE := "Feedback submitted successfully"
  const MISSING_FIELDS_MESSAGE := "Missing required fields: prompt and failedOutput"
  const FAILURE_MESSAGE := "Failed to submit feedback. Please try again later."
  /** Kept as written, although the wait the relay imposes is BLOCK_DURATION. */
  const RATE_LIMIT_MESSAGE := "Rate limit exceeded. Please wait 30 seconds before trying again."

  function JsonResponse(status: int, body: JsonBody): (r: Response)
    ensures r.status == status && r.payload == Json(body)
    ensures ALLOW_ANY_ORIGIN in r.headers && JSON_CONTENT in r.headers
  {
    Response(status, Json(body), [JSON_CONTENT, ALLOW_ANY_ORIGIN])
  }

  /** The one success response, used for genuine and for honeypot submissions. */
  const SUCCESS := JsonResponse(200, Acknowledged(true, SUCCESS_MESSAGE))
  const MISSING_FIELDS := JsonResponse(400, ErrorMessage(MISSING_FIELDS_MESSAGE))
  /** The generic failure; it never carries the provider's detail. */
  const FAILURE := JsonResponse(500, ErrorMessage(FAILURE_MESSAGE))

  /** The 429 response; the Retry-After header is the decimal wait. */
  function TooManyRequests(retryAfter: nat): (r: Response)
    ensures r.status == 429
    ensures r.payload.Json? && r.payload.json.Throttled? && r.payload.json.retryAfter == retryAfter
    ensures ALLOW_ANY_ORIGIN in r.headers
    // the header is exactly the decimal text `toString()` writes for a wait
    // below 10^21, and it reads back as the wait
    ensures Header("Retry-After", Decimal.FromNat(retryAfter)) in r.headers
    ensures exists h :: h in r.headers && h.name == "Retry-After" &&
                        Decimal.AllDigits(h.value) && Decimal.ToNat(h.value) == retryAfter
  {
    var value := Decimal.FromNat(retryAfter);
    Decimal.ToNatFromNat(retryAfter);
    var r := Response(429, Json(Throttled(RATE_LIMIT_MESSAGE, retryAfter)),
                      [JSON_CONTENT, ALLOW_ANY_ORIGIN, Header("Retry-After", value)]);
    assert r.headers[2] in r.headers;
    r
  }

  /** The notification for a validated submission. */
  function Compose(env: Env, ip: string, s: Submission, submittedAt: string): (e: Email)
    requires HasRequiredFields(s)
    ensures e.from == env.fromEmail && e.to == env.toEmail && e.subject == SUBJECT
    ensures NoTag(ip) && NoTag(submittedAt) ==>
              ParseHtml(e.html) ==
              Some(Report(ip, VersionLabel(s.modelVersion), s.prompt.value, s.failedOutput.value,
                          if Present(s.expectedOutput) then Some(s.expectedOutput.value) else None,
                          submittedAt))
  {
    var html := RenderHtml(ip, s.modelVersion, s.prompt.value, s.failedOutput.value,
                           s.expectedOutput, submittedAt);
    var email := Email(env.fromEmail, env.toEmail, SUBJECT, html);
    if NoTag(ip) && NoTag(submittedAt) then
      ParseRender(ip, s.modelVersion, s.prompt.value, s.failedOutput.value,
                  s.expectedOutput, submittedAt);
      email
    else email
  }

  /** The rate-limit check the handler makes for a POST. */
  function Limit(req: Request, env: Env, now: nat): (c: Check)
  {
    CheckRateLimit(env.kv, ClientIp(req.connectingIp), now)
  }

  /** The stage at which a POST reaches the e-mail provider. */
  predicate ReachesProvider(req: Request, env: Env, now: nat)
  {
    && req.httpMethod == "POST"
    && Limit(req, env, now).verdict.Allowed?
    && req.body.Some?
    && !IsBot(req.body.value)
    && HasRequiredFields(req.body.value)
  }

  function Handle(req: Request, env: Env, now: nat, submittedAt: string, delivery: Delivery): (o: Outcome)
    // preflight: fixed CORS answer, store and provider untouched
    ensures req.httpMethod == "OPTIONS" ==>
              o.response == PREFLIGHT && o.kv == env.kv && o.dispatched.None?
    // any other method but POST: 405 and nothing else happens
    ensures req.httpMethod != "OPTIONS" && req.httpMethod != "POST" ==>
              o.response == METHOD_NOT_ALLOWED && o.kv == env.kv && o.dispatched.None?
    // a POST makes exactly one rate-limit check, whatever follows
    ensures req.httpMethod == "POST" ==> o.kv == Limit(req, env, now).store
    // an e-mail goes out exactly when the pipeline gets that far, and it is
    // the notification for this submission
    ensures o.dispatched.Some? <==> ReachesProvider(req, env, now)
    ensures o.dispatched.Some? ==>
              o.dispatched.value ==
              Compose(env, ClientIp(req.connectingIp), req.body.value, submittedAt)
    ensures o.response.status == 429 <==>
              req.httpMethod == "POST" && Limit(req, env, now).verdict.Rejected?
    ensures o.response.status == 429 ==>
              o.response == TooManyRequests(Limit(req, env, now).verdict.retryAfter)
    ensures o.response.status == 400 <==>
              && req.httpMethod == "POST" && Limit(req, env, now).verdict.Allowed?
              && req.body.Some? && !IsBot(req.body.value) && !HasRequiredFields(req.body.value)
    ensures o.response.status == 400 ==> o.response == MISSING_FIELDS
    ensures o.response.status == 200 <==>
              || req.httpMethod == "OPTIONS"
              || (&& req.httpMethod == "POST" && Limit(req, env, now).verdict.Allowed?
                  && req.body.Some?
                  && (IsBot(req.body.value) || (HasRequiredFields(req.body.value) && delivery.Delivered?)))
    ensures o.response.status == 200 && req.httpMethod == "POST" ==> o.response == SUCCESS
    // 405 answers exactly the methods other than OPTIONS and POST
    ensures o.response.status == 405 <==>
              req.httpMethod != "OPTIONS" && req.httpMethod != "POST"
    // the generic 500: an unreadable body, or a provider failure
    ensures o.response.status == 500 <==>
              && req.httpMethod == "POST" && Limit(req, env, now).verdict.Allowed?
              && (req.body.None? || (ReachesProvider(req, env, now) && delivery.Failed?))
    ensures o.response.status == 500 ==> o.response == FAILURE
    ensures o.response.status in {200, 400, 405, 429, 500}
    ensures o.response.status != 405 ==> ALLOW_ANY_ORIGIN in o.response.headers
  {
    if req.httpMethod == "OPTIONS" then
      Outcome(PREFLIGHT, env.kv, None)
    else if req.httpMethod != "POST" then
      Outcome(METHOD_NOT_ALLOWED, env.kv, None)
    else
      var ip := ClientIp(req.connectingIp);
      var check := CheckRateLimit(env.kv, ip, now);
      if check.verdict.Rejected? then
        Outcome(TooManyRequests(check.verdict.retryAfter), check.store, None)
      else
        match req.body
        case None => Outcome(FAILURE, check.store, None)
        case Some(s) =>
          if IsBot(s) then
            Outcome(SUCCESS, check.store, None)
          else if !HasRequiredFields(s) then
            Outcome(MISSING_FIELDS, check.store, None)
          else
            var email := Compose(env, ip, s, submittedAt);
            match delivery
            case Delivered => Outcome(SUCCESS, check.store, Some(email))
            case Failed(_) => Outcome(FAILURE, check.store, Some(email))
  }

  // ---------------------------------------------------------------------
  // Properties of the pipeline

  /** A preflight answer depends on nothing: not the store, the body, the
      clock or the provider. */
  lemma PreflightIndependent(req: Request, req': Request, env: Env, env': Env,
                             now: nat, now': nat, at: string, at': string,
                             d: Delivery, d': Delivery)
    requires req.httpMethod == "OPTIONS" && req'.httpMethod == "OPTIONS"
    ensures Handle(req, env, now, at, d).response == Handle(req', env', now', at', d').response
    ensures Handle(req, env, now, at, d).kv == env.kv
  {
  }

  /** A throttled client gets the 429 before its body is looked at: the
      outcome is the same whatever the body holds, even one that is not JSON. */
  lemma ThrottledBeforeBody(req: Request, env: Env, now: nat, at: string, d: Delivery,
                            body: Option<Submission>)
    requires req.httpMethod == "POST" && Limit(req, env, now).verdict.Rejected?
    ensures Handle(req, env, now, at, d) == Handle(req.(body := body), env, now, at, d)
    ensures Handle(req, env, now, at, d).dispatched.None?
  {
  }

  /** A bot that fills in the honeypot receives exactly the response a
      genuine, delivered submission receives, even when its required fields
      are missing, and nothing is sent. */
  lemma HoneypotIndistinguishable(bot: Request, genuine: Request, env: Env, env': Env,
                                  now: nat, now': nat, at: string, d: Delivery)
    requires bot.httpMethod == "POST" && Limit(bot, env, now).verdict.Allowed?
    requires bot.body.Some? && IsBot(bot.body.value)
    requires genuine.httpMethod == "POST" && Limit(genuine, env', now').verdict.Allowed?
    requires genuine.body.Some? && !IsBot(genuine.body.value) && HasRequiredFields(genuine.body.value)
    ensures Handle(bot, env, now, at, d).response == Handle(genuine, env', now', at, Delivered).response
    ensures Handle(bot, env, now, at, d).dispatched.None?
    ensures Handle(genuine, env', now', at, Delivered).dispatched.Some?
  {
  }

  /** The provider's failure text never reaches the caller: two failures
      with different detail give the same outcome, and that outcome is the
      generic 500. */
  lemma ProviderDetailHidden(req: Request, env: Env, now: nat, at: string, a: string, b: string)
    requires ReachesProvider(req, env, now)
    ensures Handle(req, env, now, at, Failed(a)) == Handle(req, env, now, at, Failed(b))
    ensures Handle(req, env, now, at, Failed(a)).response == FAILURE
  {
  }

  /** Fail open: with no store bound, no request is ever throttled. */
  lemma NoStoreNeverThrottles(req: Request, env: Env, now: nat, at: string, d: Delivery)
    requires env.kv.None?
    ensures Handle(req, env, now, at, d).response.status != 429
    ensures Handle(req, env, now, at, d).kv.None?
  {
  }

  /** The throttling answer tells a client whose record the limiter wrote to
      wait between 1 and BLOCK_DURATION seconds, in body and header alike. */
  lemma RetryAfterInResponse(req: Request, env: Env, now: nat, at: string, d: Delivery)
    requires env.kv.Some?
    requires var key := Key(ClientIp(req.connectingIp));
             key in env.kv.value ==> Reachable(env.kv.value[key], now)
    ensures var r := Handle(req, env, now, at, d).response;
            r.status == 429 ==>
              && r.payload.Json? && r.payload.json.Throttled?
              && 1 <= r.payload.json.retryAfter <= BLOCK_DURATION
              && Header("Retry-After", Decimal.FromNat(r.payload.json.retryAfter)) in r.headers
              && Decimal.ToNat(Decimal.FromNat(r.payload.json.retryAfter)) == r.payload.json.retryAfter
  {
    var key := Key(ClientIp(req.connectingIp));
    RetryAfterBounds(Lookup(env.kv.value, key), now);
  }

  // ---------------------------------------------------------------------
  // Scenarios

  const SCENARIO := Submission(Some("list docker images"), Some("docker list images"), None,
                               Some("Zest Lite"), None)

  /** A valid submission from a new client is accepted, and exactly one
      notification goes out, showing that submission's fields (for the
      example "list docker images" / "docker list images" / "Zest Lite", those
      three texts). */
  lemma AcceptedFromNewClient(kv: Store, ip: string, env: Env, now: nat, at: string, s: Submission)
    requires Key(ip) !in kv && |ip| > 0 && NoTag(ip) && NoTag(at)
    requires env.kv == Some(kv)
    requires !IsBot(s) && HasRequiredFields(s)
    ensures var o := Handle(Request("POST", Some(ip), Some(s)), env, now, at, Delivered);
            && o.response == SUCCESS
            && o.dispatched.Some?
            && ParseHtml(o.dispatched.value.html) ==
               Some(Report(ip, VersionLabel(s.modelVersion), s.prompt.value, s.failedOutput.value,
                           if Present(s.expectedOutput) then Some(s.expectedOutput.value) else None,
                           at))
  {
  }

  /** The same submission twice within a window from one client: accepted,
      then throttled for 60 seconds, and the second sends nothing. */
  lemma RepeatScenario(kv: Store, ip: string, env: Env, t1: nat, t2: nat, at: string)
    requires Key(ip) !in kv && |ip| > 0
    requires env.kv == Some(kv)
    requires t1 <= t2 <= t1 + 5
    ensures var req := Request("POST", Some(ip), Some(SCENARIO));
            var first := Handle(req, env, t1, at, Delivered);
            var second := Handle(req, env.(kv := first.kv), t2, at, Delivered);
            && first.response.status == 200
            && second.response == TooManyRequests(BLOCK_DURATION)
            && second.dispatched.None?
  {
    SecondRequestRefused(kv, ip, t1, t2);
  }

  /** A filled-in honeypot with valid fields from a new client (or with no
      store bound): 200, nothing sent. */
  lemma SpamScenario(env: Env, ip: string, now: nat, at: string, d: Delivery)
    requires |ip| > 0
    requires env.kv.Some? ==> Key(ip) !in env.kv.value
    ensures var o := Handle(Request("POST", Some(ip),
                                    Some(SCENARIO.(website := Some("http://spam.example")))),
                            env, now, at, d);
            o.response == SUCCESS && o.dispatched.None?
  {
  }
}

=== FILE: html_escape.dfy ===
/** The relay's `escapeHtml`: every occurrence of the five HTML-significant
    characters is replaced by its character reference, everything else is
    copied. `Unescape` decodes those five references the way an HTML renderer
    would, and is the inverse against which escaping is checked. */
module HtmlEscape {

  /** The characters the relay escapes. */
  predicate IsSpecial(c: char)
  {
    c == '&' || c == '<' || c == '>' || c == '"' || c == '\''
  }

  /** The characters that could open or close markup or an attribute value;
      escaped text never contains them raw (`&` survives as the start of a
      reference). */
  predicate IsMarkup(c: char)
  {
    c == '<' || c == '>' || c == '"' || c == '\''
  }

  predicate NoSpecial(s: string)
  {
    forall i :: 0 <= i < |s| ==> !IsSpecial(s[i])
  }

  predicate NoMarkup(s: string)
  {
    forall i :: 0 <= i < |s| ==> !IsMarkup(s[i])
  }

  const AMP := "&amp;"
  const LT := "&lt;"
  const GT := "&gt;"
  const QUOT := "&quot;"
  const APOS := "&#039;"

  /** The replacement for one character. */
  function EscapeChar(c: char): (e: string)
    ensures NoMarkup(e)
    ensures |e| > 0
    // a reference starts with `&` exactly when the character needed escaping
    ensures (e[0] == '&') <==> IsSpecial(c)
    ensures !IsSpecial(c) ==> e == [c]
    ensures IsSpecial(c) ==> |e| > 1
  {
    match c
    case '&' => AMP
    case '<' => LT
    case '>' => GT
    case '"' => QUOT
    case '\'' => APOS
    case _ => [c]
  }

  function EscapeHtml(s: string): (r: string)
    ensures NoMarkup(r)
    ensures |r| >= |s|
    ensures NoSpecial(s) ==> r == s
    ensures |r| == |s| ==> NoSpecial(s)
    decreases |s|
  {
    if |s| == 0 then []
    else
      var head := EscapeChar(s[0]);
      var tail := EscapeHtml(s[1..]);
      assert NoMarkup(head + tail) by {
        forall i | 0 <= i < |head + tail|
          ensures !IsMarkup((head + tail)[i])
        {
          if i >= |head| {
            assert (head + tail)[i] == tail[i - |head|];
          }
        }
      }
      assert NoSpecial(s) ==> NoSpecial(s[1..]) by {
        if NoSpecial(s) {
          forall i | 0 <= i < |s[1..]|
            ensures !IsSpecial(s[1..][i])
          {
            assert s[1..][i] == s[i + 1];
          }
        }
      }
      assert |head + tail| == |s| ==> NoSpecial(s) by {
        if |head + tail| == |s| {
          assert |head| == 1;
          assert !IsSpecial(s[0]);
          forall i | 0 <= i < |s|
            ensures !IsSpecial(s[i])
          {
            if i > 0 {
              assert s[i] == s[1..][i - 1];
            }
          }
        }
      }
      head + tail
  }

  predicate IsPrefix(p: string, s: string)
  {
    |p| <= |s| && s[..|p|] == p
  }

  /** Decoding of the five references the relay produces; any other text,
      including a stray `&`, is copied. */
  function Unescape(s: string): (r: string)
    ensures |r| <= |s|
    decreases |s|
  {
    if |s| == 0 then []
    else if s[0] != '&' then [s[0]] + Unescape(s[1..])
    else if IsPrefix(AMP, s) then ['&'] + Unescape(s[|AMP|..])
    else if IsPrefix(LT, s) then ['<'] + Unescape(s[|LT|..])
    else if IsPrefix(GT, s) then ['>'] + Unescape(s[|GT|..])
    else if IsPrefix(QUOT, s) then ['"'] + Unescape(s[|QUOT|..])
    else if IsPrefix(APOS, s) then ['\''] + Unescape(s[|APOS|..])
    else [s[0]] + Unescape(s[1..])
  }

  /** Decoding a reference consumes exactly that reference. */
  lemma UnescapeReference(ref: string, c: char, rest: string)
    requires c == '&' || c == '<' || c == '>' || c == '"' || c == '\''
    requires ref == EscapeChar(c)
    ensures Unescape(ref + rest) == [c] + Unescape(rest)
  {
    var s := ref + rest;
    assert s[..|ref|] == ref && s[|ref|..] == rest;
    if c == '<' || c == '>' || c == '"' || c == '\'' {
      assert s[1] == ref[1];
      assert !IsPrefix(AMP, s) by { assert AMP[1] == 'a' != ref[1]; }
    }
    if c == '>' || c == '"' || c == '\'' {
      assert !IsPrefix(LT, s) by { assert LT[1] == 'l' != ref[1]; }
    }
    if c == '"' || c == '\'' {
      assert !IsPrefix(GT, s) by { assert GT[1] == 'g' != ref[1]; }
    }
    if c == '\'' {
      assert !IsPrefix(QUOT, s) by { assert QUOT[1] == 'q' != ref[1]; }
    }
  }

  /** Escaping one character and then decoding gives the character back,
      whatever follows it. */
  lemma UnescapeEscapeChar(c: char, rest: string)
    ensures Unescape(EscapeChar(c) + rest) == [c] + Unescape(rest)
  {
    if IsSpecial(c) {
      UnescapeReference(EscapeChar(c), c, rest);
    } else {
      var s := EscapeChar(c) + rest;
      assert s[0] == c && s[1..] == rest;
    }
  }

  /** Round trip: decoding the five references in the escaped text gives
      back exactly what the user typed. */
  lemma {:induction false} UnescapeEscape(s: string)
    ensures Unescape(EscapeHtml(s)) == s
    decreases |s|
  {
    if |s| > 0 {
      UnescapeEscapeChar(s[0], EscapeHtml(s[1..]));
      UnescapeEscape(s[1..]);
      assert [s[0]] + s[1..] == s;
    }
  }

  /** Different texts never escape to the same output. */
  lemma EscapeInjective(a: string, b: string)
    requires EscapeHtml(a) == EscapeHtml(b)
    ensures a == b
  {
    UnescapeEscape(a);
    UnescapeEscape(b);
  }

  /** Escaping distributes over concatenation. */
  lemma {:induction false} EscapeConcat(a: string, b: string)
    ensures EscapeHtml(a + b) == EscapeHtml(a) + EscapeHtml(b)
    decreases |a|
  {
    if |a| == 0 {
      assert a + b == b;
    } else {
      assert (a + b)[0] == a[0];
      assert (a + b)[1..] == a[1..] + b;
      EscapeConcat(a[1..], b);
    }
  }

  /** The exact mapping on a single character. */
  lemma EscapeSingle(c: char)
    ensures EscapeHtml([c]) == EscapeChar(c)
    ensures EscapeHtml("&") == "&amp;" && EscapeHtml("<") == "&lt;" && EscapeHtml(">") == "&gt;"
    ensures EscapeHtml("\"") == "&quot;" && EscapeHtml("'") == "&#039;"
  {
    assert [c][1..] == [];
    assert "&"[1..] == [] && "<"[1..] == [] && ">"[1..] == [];
    assert "\""[1..] == [] && "'"[1..] == [];
  }

  /** A tag in the user's text, such as `<script>`, comes out inert: its
      brackets become references and its name is kept. */
  lemma TagNeutralised(name: string)
    requires NoSpecial(name)
    ensures EscapeHtml("<" + name + ">") == LT + name + GT
  {
    EscapeSingle('<');
    EscapeSingle('>');
    EscapeConcat("<", name);
    EscapeConcat("<" + name, ">");
  }
}

=== FILE: rate_limit.dfy ===
/** The per-client rate limiter of the feedback relay: a fixed counting window
    of RATE_LIMIT_WINDOW seconds admitting RATE_LIMIT submissions, followed by
    a block of BLOCK_DURATION seconds once the limit is exceeded. Records live
    in an external key-value store under the key "ratelimit:<ip>". */
module RateLimit {
  import opened Wrappers

  /** Submissions admitted per window. */
  const RATE_LIMIT: int := 1
  /** Length of a counting window, in seconds. */
  const RATE_LIMIT_WINDOW: int := 60
  /** Length of the block imposed once the limit is exceeded, in seconds. */
  const BLOCK_DURATION: int := 60

  /** The JSON record kept per client; `blockedUntil` is absent until the
      client is first blocked. Times are whole seconds since the epoch. */
  datatype Record = Record(count: int, firstRequest: int, blockedUntil: Option<int>)

  /** What the limiter tells the request handler. */
  datatype Verdict = Allowed | Rejected(retryAfter: int)

  /** One write to the store: the record and its expiration TTL in seconds. */
  datatype Put = Put(record: Record, ttl: int)

  /** The verdict for one request together with the write it issues, if any. */
  datatype Decision = Decision(verdict: Verdict, put: Option<Put>)

  /** The store: key to record. Expiry of entries is not modelled. */
  type Store = map<string, Record>

  /** A record's `blockedUntil` is set (and truthy) and still in the future.
      With `now` a natural number, `Some(0)` can never block, which matches the
      falsiness of 0 in the source's test. */
  predicate IsBlocked(r: Record, now: nat)
  {
    r.blockedUntil.Some? && now < r.blockedUntil.value
  }

  /** More than a full window has passed since the window opened. */
  predicate WindowLapsed(r: Record, now: nat)
  {
    now - r.firstRequest > RATE_LIMIT_WINDOW
  }

  /** The limiter's transition for a configured store: given the record read
      for this client (None when the key is absent) and the current time,
      decide and say what to write back. */
  function Step(stored: Option<Record>, now: nat): (d: Decision)
    // a request is admitted exactly when the key is new, or it is neither
    // blocked nor still over the limit inside its window
    ensures d.verdict.Allowed? <==>
              (stored.None? ||
               (!IsBlocked(stored.value, now) &&
                (WindowLapsed(stored.value, now) || stored.value.count < RATE_LIMIT)))
    ensures d.verdict.Rejected? ==> d.verdict.retryAfter > 0
    // the store is left alone exactly when the client is inside a block
    ensures d.put.None? <==> (stored.Some? && IsBlocked(stored.value, now))
    // an admitted request always writes an unblocked record that expires with the window
    ensures d.verdict.Allowed? ==>
              && d.put.Some?
              && d.put.value.record.blockedUntil.None?
              && d.put.value.ttl == RATE_LIMIT_WINDOW
    // a written window either starts now or is the stored one, one count further on
    ensures d.put.Some? ==>
              || d.put.value.record == Record(1, now, None)
              || (stored.Some? &&
                  d.put.value.record.firstRequest == stored.value.firstRequest &&
                  d.put.value.record.count == stored.value.count + 1)
    // a written block never outlives the written record
    ensures d.put.Some? && d.put.value.record.blockedUntil.Some? ==>
              d.put.value.record.blockedUntil.value <= now + d.put.value.ttl
  {
    match stored
    case None =>
      Decision(Allowed, Some(Put(Record(1, now, None), RATE_LIMIT_WINDOW)))
    case Some(r) =>
      if IsBlocked(r, now) then
        Decision(Rejected(r.blockedUntil.value - now), None)
      else if WindowLapsed(r, now) then
        Decision(Allowed, Some(Put(Record(1, now, None), RATE_LIMIT_WINDOW)))
      else if r.count >= RATE_LIMIT then
        Decision(Rejected(BLOCK_DURATION),
                 Some(Put(Record(r.count + 1, r.firstRequest, Some(now + BLOCK_DURATION)),
                          RATE_LIMIT_WINDOW + BLOCK_DURATION)))
      else
        Decision(Allowed, Some(Put(Record(r.count + 1, r.firstRequest, None), RATE_LIMIT_WINDOW)))
  }

  /** The record the store holds for the client after `Step`. */
  function After(stored: Option<Record>, now: nat): (next: Option<Record>)
    ensures stored.Some? ==> next.Some?
    ensures next.None? ==> stored.None?
  {
    var d := Step(stored, now);
    if d.put.Some? then Some(d.put.value.record) else stored
  }

  /** The store key for a client address. */
  function Key(ip: string): (k: string)
    ensures |k| == |ip| + 10 && k[10..] == ip
  {
    "ratelimit:" + ip
  }

  function Lookup(store: Store, key: string): (r: Option<Record>)
    ensures r.Some? <==> key in store
    ensures r.Some? ==> r.value == store[key]
  {
    if key in store then Some(store[key]) else None
  }

  /** Outcome of the check at store level: the verdict, the write issued and
      the new store (None when no store is configured). */
  datatype Check = Check(verdict: Verdict, put: Option<Put>, store: Option<Store>)

  /** The limiter as the handler calls it: fail open when no store is
      configured, otherwise read the client's record, decide, write back. */
  function CheckRateLimit(kv: Option<Store>, ip: string, now: nat): (c: Check)
    // fail open: no store means every request is admitted and nothing is written
    ensures kv.None? ==> c.verdict == Allowed && c.put.None? && c.store.None?
    ensures kv.Some? ==> c.store.Some?
    // with a store, the verdict and the write are the step on this client's record
    ensures kv.Some? ==> Decision(c.verdict, c.put) == Step(Lookup(kv.value, Key(ip)), now)
    // only this client's entry can change, and it changes to what was written
    ensures kv.Some? ==>
              forall k :: k != Key(ip) ==>
                (k in c.store.value <==> k in kv.value) &&
                (k in kv.value ==> c.store.value[k] == kv.value[k])
    ensures kv.Some? && c.put.Some? ==>
              Key(ip) in c.store.value && c.store.value[Key(ip)] == c.put.value.record
    ensures kv.Some? && c.put.None? ==> c.store == kv
    ensures c.verdict.Rejected? ==> kv.Some? && c.verdict.retryAfter > 0
  {
    match kv
    case None => Check(Allowed, None, None)
    case Some(store) =>
      var d := Step(Lookup(store, Key(ip)), now);
      var store' := if d.put.Some? then store[Key(ip) := d.put.value.record] else store;
      Check(d.verdict, d.put, Some(store'))
  }

  // ---------------------------------------------------------------------
  // One transition at a time

  /** A key never seen before is admitted and opens a window of count 1. */
  lemma FreshKey(now: nat)
    ensures Step(None, now) ==
            Decision(Allowed, Some(Put(Record(1, now, None), RATE_LIMIT_WINDOW)))
  {
  }

  /** A blocked client is turned away for the rest of its block, and the
      store is not written. */
  lemma BlockedKey(r: Record, now: nat)
    requires IsBlocked(r, now)
    ensures Step(Some(r), now) == Decision(Rejected(r.blockedUntil.value - now), None)
    ensures Step(Some(r), now).verdict.retryAfter > 0
  {
  }

  /** Once more than a window has passed and no block is in force the window
      restarts at `now`, dropping any old block. A request exactly
      RATE_LIMIT_WINDOW seconds in is still inside the old window. */
  lemma WindowReset(r: Record, now: nat)
    requires !IsBlocked(r, now)
    ensures WindowLapsed(r, now) ==>
              Step(Some(r), now) ==
              Decision(Allowed, Some(Put(Record(1, now, None), RATE_LIMIT_WINDOW)))
    ensures now == r.firstRequest + RATE_LIMIT_WINDOW ==> !WindowLapsed(r, now)
  {
  }

  /** Inside the window, reaching the limit blocks for BLOCK_DURATION seconds
      and keeps the record for a window plus a block; below the limit the
      count goes up and the window is kept. */
  lemma WithinWindow(r: Record, now: nat)
    requires !IsBlocked(r, now) && !WindowLapsed(r, now)
    ensures r.count >= RATE_LIMIT ==>
              Step(Some(r), now) ==
              Decision(Rejected(BLOCK_DURATION),
                       Some(Put(Record(r.count + 1, r.firstRequest, Some(now + BLOCK_DURATION)),
                                RATE_LIMIT_WINDOW + BLOCK_DURATION)))
    ensures r.count < RATE_LIMIT ==>
              Step(Some(r), now) ==
              Decision(Allowed, Some(Put(Record(r.count + 1, r.firstRequest, None), RATE_LIMIT_WINDOW)))
  {
  }

  /** A record as the limiter itself can have written it at or before `now`:
      at least one request counted, the window opened no later than `now`,
      and any block ends at most BLOCK_DURATION seconds after `now`. */
  predicate Reachable(r: Record, now: int)
  {
    && r.count >= 1
    && r.firstRequest <= now
    && (r.blockedUntil.Some? ==> r.blockedUntil.value <= now + BLOCK_DURATION)
  }

  /** Every record the limiter writes is reachable, and stays so as the clock
      moves forward. */
  lemma StepKeepsReachable(stored: Option<Record>, now: nat, later: int)
    requires stored.Some? ==> Reachable(stored.value, now)
    requires now <= later
    ensures After(stored, now).Some?
    ensures Reachable(After(stored, now).value, later)
  {
  }

  /** For records the limiter wrote, every rejection asks the client to wait
      between 1 and BLOCK_DURATION seconds. */
  lemma RetryAfterBounds(stored: Option<Record>, now: nat)
    requires stored.Some? ==> Reachable(stored.value, now)
    ensures Step(stored, now).verdict.Rejected? ==>
              1 <= Step(stored, now).verdict.retryAfter <= BLOCK_DURATION
  {
  }

  /** With RATE_LIMIT == 1 a request is admitted on a known key only once the
      window has lapsed: the increment branch never runs on a written record. */
  lemma AdmittedOnlyAfterWindow(r: Record, now: nat)
    requires r.count >= RATE_LIMIT
    ensures Step(Some(r), now).verdict.Allowed? ==> now - r.firstRequest > RATE_LIMIT_WINDOW
    ensures Step(Some(r), now).verdict.Allowed? ==> After(Some(r), now) == Some(Record(1, now, None))
  {
  }

  /** A block set at time `t` is over at `t + BLOCK_DURATION`, but the next
      request is admitted at that instant only if the window opened before
      `t`; one second later it is always admitted. */
  lemma ReleaseAfterBlock(r: Record, t: nat, now: nat)
    requires Reachable(r, t)
    requires Step(Some(r), t).verdict.Rejected? && Step(Some(r), t).put.Some?
    requires now >= t + BLOCK_DURATION
    ensures Step(After(Some(r), t), now).verdict.Allowed? <==>
              (now > t + BLOCK_DURATION || r.firstRequest < t)
  {
  }

  /** The boundary case above on concrete numbers: opened and blocked at 0,
      retried exactly at 60, the client is blocked again. */
  lemma ReblockedAtBoundary()
    ensures Step(Some(Record(1, 0, None)), 0) ==
            Decision(Rejected(60), Some(Put(Record(2, 0, Some(60)), 120)))
    ensures Step(Some(Record(2, 0, Some(60))), 60) ==
            Decision(Rejected(60), Some(Put(Record(3, 0, Some(120)), 120)))
    ensures Step(Some(Record(2, 0, Some(60))), 61).verdict == Allowed
  {
  }

  // ---------------------------------------------------------------------
  // Keys

  /** Distinct clients never share a store entry. */
  lemma KeyInjective(a: string, b: string)
    requires Key(a) == Key(b)
    ensures a == b
  {
  }

  /** Checking one client neither changes another client's entry nor its
      verdict: a fresh second client at the same instant is admitted. */
  lemma OtherClientUnaffected(kv: Store, ip: string, other: string, now: nat)
    requires ip != other
    requires Key(other) !in kv
    ensures Key(other) !in CheckRateLimit(Some(kv), ip, now).store.value
    ensures CheckRateLimit(CheckRateLimit(Some(kv), ip, now).store, other, now).verdict == Allowed
  {
    assert Key(ip)[10..] != Key(other)[10..];
  }

  /** The acceptance scenario: the first request from a new client is
      admitted; a repeat within the window is refused for 60 seconds. */
  lemma SecondRequestRefused(kv: Store, ip: string, t1: nat, t2: nat)
    requires Key(ip) !in kv
    requires t1 <= t2 <= t1 + RATE_LIMIT_WINDOW
    ensures CheckRateLimit(Some(kv), ip, t1).verdict == Allowed
    ensures CheckRateLimit(CheckRateLimit(Some(kv), ip, t1).store, ip, t2).verdict ==
            Rejected(BLOCK_DURATION)
  {
  }

  // ---------------------------------------------------------------------
  // Runs of requests from one client

  /** Verdicts for a run of requests from one client, in order, and the
      record left behind. */
  datatype Run = Run(verdicts: seq<Verdict>, final: Option<Record>)

  function Replay(stored: Option<Record>, times: seq<nat>): (run: Run)
    ensures |run.verdicts| == |times|
    decreases |times|
  {
    if |times| == 0 then Run([], stored)
    else
      var d := Step(stored, times[0]);
      var rest := Replay(After(stored, times[0]), times[1..]);
      Run([d.verdict] + rest.verdicts, rest.final)
  }

  predicate NonDecreasing(times: seq<nat>)
  {
    forall i, j :: 0 <= i < j < |times| ==> times[i] <= times[j]
  }

  /** Every admitted request in a run comes more than a window after the
      window the stored record had opened. */
  lemma {:induction false} AdmittedAfterStoredWindow(r: Record, times: seq<nat>)
    requires r.count >= RATE_LIMIT
    ensures forall j :: 0 <= j < |times| && Replay(Some(r), times).verdicts[j].Allowed? ==>
              times[j] - r.firstRequest > RATE_LIMIT_WINDOW
    decreases |times|
  {
    if |times| > 0 {
      var next := After(Some(r), times[0]);
      AdmittedOnlyAfterWindow(r, times[0]);
      assert next.Some? && next.value.count >= RATE_LIMIT;
      AdmittedAfterStoredWindow(next.value, times[1..]);
      var run := Replay(Some(r), times);
      assert run.verdicts[1..] == Replay(next, times[1..]).verdicts;
      forall j | 0 <= j < |times| && run.verdicts[j].Allowed?
        ensures times[j] - r.firstRequest > RATE_LIMIT_WINDOW
      {
        if j > 0 {
          assert times[1..][j - 1] == times[j];
          assert Replay(next, times[1..]).verdicts[j - 1].Allowed?;
          if Step(Some(r), times[0]).verdict.Allowed? {
            assert next.value.firstRequest == times[0];
          } else {
            assert next.value.firstRequest == r.firstRequest;
          }
        }
      }
    }
  }

  /** The limiter's guarantee: any two requests admitted from one client
      (starting from a fresh key or a record the limiter wrote) are more than
      RATE_LIMIT_WINDOW seconds apart. */
  lemma {:induction false} AdmittedRequestsSpaced(stored: Option<Record>, times: seq<nat>)
    requires stored.Some? ==> stored.value.count >= RATE_LIMIT
    ensures forall i, j :: 0 <= i < j < |times| &&
                           Replay(stored, times).verdicts[i].Allowed? &&
                           Replay(stored, times).verdicts[j].Allowed? ==>
              times[j] - times[i] > RATE_LIMIT_WINDOW
    decreases |times|
  {
    if |times| > 0 {
      var next := After(stored, times[0]);
      assert next.Some? && next.value.count >= RATE_LIMIT;
      var run := Replay(stored, times);
      var tail := Replay(next, times[1..]);
      assert run.verdicts[1..] == tail.verdicts;
      AdmittedRequestsSpaced(next, times[1..]);
      AdmittedAfterStoredWindow(next.value, times[1..]);
      forall i, j | 0 <= i < j < |times| && run.verdicts[i].Allowed? && run.verdicts[j].Allowed?
        ensures times[j] - times[i] > RATE_LIMIT_WINDOW
      {
        assert times[1..][j - 1] == times[j];
        assert tail.verdicts[j - 1].Allowed?;
        if i == 0 {
          assert next.value.firstRequest == times[0];
        } else {
          assert times[1..][i - 1] == times[i];
          assert tail.verdicts[i - 1].Allowed?;
        }
      }
    }
  }

  /** Over any run with a clock that does not go backwards, every rejection
      asks for a wait between 1 and BLOCK_DURATION seconds. */
  lemma {:induction false} RunRetryAfterBounds(stored: Option<Record>, times: seq<nat>)
    requires NonDecreasing(times)
    requires |times| > 0 && stored.Some? ==> Reachable(stored.value, times[0])
    ensures forall i :: 0 <= i < |times| && Replay(stored, times).verdicts[i].Rejected? ==>
              1 <= Replay(stored, times).verdicts[i].retryAfter <= BLOCK_DURATION
    decreases |times|
  {
    if |times| > 0 {
      RetryAfterBounds(stored, times[0]);
      var next := After(stored, times[0]);
      if |times| > 1 {
        StepKeepsReachable(stored, times[0], times[1]);
      }
      assert NonDecreasing(times[1..]) by {
        forall i, j | 0 <= i < j < |times[1..]|
          ensures times[1..][i] <= times[1..][j]
        {
          assert times[1..][i] == times[i + 1] && times[1..][j] == times[j + 1];
        }
      }
      RunRetryAfterBounds(next, times[1..]);
      var run := Replay(stored, times);
      var tail := Replay(next, times[1..]);
      assert run.verdicts[1..] == tail.verdicts;
      forall i | 0 <= i < |times| && run.verdicts[i].Rejected?
        ensures 1 <= run.verdicts[i].retryAfter <= BLOCK_DURATION
      {
        if i > 0 {
          assert run.verdicts[i] == tail.verdicts[i - 1];
        }
      }
    }
  }
}

=== FILE: submission.dfy ===
/** The feedback submission as the relay reads it from the request body, and
    the JavaScript truthiness test it applies to each field. */
module Feedback {
  import opened Wrappers

  /** The fields destructured from the JSON body; each may be missing.
      `website` is the honeypot: people never fill it in. */
  datatype Submission = Submission(
    prompt: Option<string>,
    failedOutput: Option<string>,
    expectedOutput: Option<string>,
    modelVersion: Option<string>,
    website: Option<string>)

  /** A string field is truthy in JavaScript when it is present and non-empty. */
  predicate Present(field: Option<string>)
  {
    field.Some? && |field.value| > 0
  }

  /** The fallback address used when the proxy supplies no client address. */
  const UNKNOWN_CLIENT := "unknown"

  /** The client identifier: the proxy's connecting-IP header when it is
      present and non-empty, otherwise "unknown". */
  function ClientIp(header: Option<string>): (ip: string)
    ensures |ip| > 0
    ensures Present(header) ==> ip == header.value
    ensures !Present(header) ==> ip == UNKNOWN_CLIENT
  {
    if Present(header) then header.value else UNKNOWN_CLIENT
  }

  /** A submission that passes validation: both required fields truthy. */
  predicate HasRequiredFields(s: Submission)
  {
    Present(s.prompt) && Present(s.failedOutput)
  }

  /** A submission the honeypot marks as automated. */
  predicate IsBot(s: Submission)
  {
    Present(s.website)
  }
}

=== FILE: wrappers.dfy ===
/** The Option datatype used for every value that may be absent: a key-value
    entry that does not exist, a request-body field that was not sent. */
module Wrappers {

  datatype Option<+T> = None | Some(value: T)
}
